=== FILE: README.md ===
# YouTube audit wizard — a Dafny model

The system is a client-side wizard. A welcome screen leads to a two-step
form. Step 1 collects twelve channel fields; step 2 collects five video
entries of six fields each, plus an analysis comment. The wizard then emits
one audit payload, and a report screen turns it into cards, chart series
and text blocks. All fields are free text. The report reads numbers out of
them by keeping only the digits.

This project models that data pipeline as pure functions:

- `AuditTypes` (audit_types.dfy): the `ChannelData`, `VideoData` and
  `AuditData` records, their field keys, and single-field update.
- `NumericText` (numeric_text.dfy): the report's string-to-number rules.
  The digit parse is `parseInt(s.replace(/[^\d]/g,'')) || 0`; the number
  formatter reads the leading digit run.
- `ChannelInfoStep` and `VideoDataStep` (channel_info_step.dfy,
  video_data_step.dfy): the two forms' local state and their handlers.
- `AuditForm` (audit_form.dfy): the two-step wizard. It holds the step
  number, the drafts, and the local state of the form currently mounted.
- `PdfPreview` (pdf_preview.dfy): the report's derived data (chart series,
  the fixed pie, the "latest videos" list, the summary cards and the gated
  text blocks).
- `IndexPage` (index_page.dfy): the welcome / form / preview controller and
  its screen selection.

React renders each child only while its screen or step is active. So a
child is modelled as mounted afresh, from its initial props, each time its
screen or step is entered. Returning from the report to the form therefore
starts the wizard from blank drafts. Returning from step 2 to step 1 drops
unsubmitted video edits. The random pick of a canned comment is a `Pick`
parameter in [0, 5). A completed file read is an `Option<string>`
parameter, where `None` means no file was selected.

What the code does with blank or partial input:

- The report does not filter blank video entries out of its series or its
  "latest videos" list. Every entry is charted, and a blank one charts as
  zeros (`PdfPreview.BlankVideoStaysInSeries`).
- The four summary cards are shown whatever their fields hold.
- The SEO line chart is always drawn, one point per entry
  (src/components/PDFPreview.tsx:184-192).
- Chart categories are always the positional label "Video i+1", never the
  entry's title (src/components/PDFPreview.tsx:24). Only the "latest
  videos" list shows titles.
- The back button of step 2 returns to step 1 without saving the video
  form's unsubmitted edits (src/components/AuditForm.tsx:115,
  `AuditForm.BackDropsVideoEdits`).
- Going back from the report does not bring back the earlier drafts. The
  wizard is remounted blank (`IndexPage.BackToFormRestartsWizard`).

The final comment typed on the report page is that page's own state. The
`finalComment` field of the payload, always "", is never read.

## Model

| member | source | states |
|---|---|---|
| AuditTypes.SetChannel | src/components/ChannelInfoStep.tsx:20-22 | updating key f gives f the new value; the other eleven keys keep theirs |
| AuditTypes.SetVideo | src/components/VideoDataStep.tsx:24 | updating key f of one entry gives f the new value; the other five keys keep theirs |
| AuditTypes.SetChannelUndo | src/components/ChannelInfoStep.tsx:20-22 | writing a key's previous value back gives the original record |
| AuditTypes.SetVideoUndo | src/components/VideoDataStep.tsx:24 | writing a video key's previous value back gives the original entry |
| AuditTypes.EmptyChannel | src/components/AuditForm.tsx:18-31 | every one of the twelve channel keys reads "" |
| AuditTypes.EmptyVideo | src/components/AuditForm.tsx:34-41 | every one of the six video keys reads "" |
| NumericText.KeepDigits | src/components/PDFPreview.tsx:25 | the stripped string holds only ASCII digits and is no longer than the input |
| NumericText.KeepDigitsAppend | src/components/PDFPreview.tsx:25 | stripping a concatenation gives the concatenation of the stripped parts |
| NumericText.DecimalValueAppend | src/components/PDFPreview.tsx:25 | the value of joined digit strings is the first value shifted by the second's length, plus the second value |
| NumericText.KeepDigitsOfDigits | src/components/PDFPreview.tsx:25 | a string of digits strips to itself |
| NumericText.KeepDigitsOfNoDigits | src/components/PDFPreview.tsx:25 | a string without digits strips to "" |
| NumericText.KeepDigitsIdempotent | src/components/PDFPreview.tsx:25 | stripping twice gives the same as stripping once |
| NumericText.NoDigitsParsesToZero | src/components/PDFPreview.tsx:25-27 | a string without digits (such as "N/A" or "") parses to 0 |
| NumericText.DigitParse | src/components/PDFPreview.tsx:25-27 | a metric with no digits reads as 0, since the empty parse falls back to 0; a metric made only of digits reads as its decimal value |
| NumericText.DigitParseAppend | src/components/PDFPreview.tsx:25-27 | the parse of a + b is the parse of a shifted by b's digit count, plus the parse of b; all digits join into one number |
| NumericText.DigitParseMillionSuffix | src/components/PDFPreview.tsx:25 | "1.2M" parses to 12 |
| NumericText.DigitParseFraction | src/components/PDFPreview.tsx:32 | "85/100" parses to 85100 |
| NumericText.DigitParseThousandsSuffix | src/components/PDFPreview.tsx:25 | "125K" parses to 125 |
| NumericText.ParseDigits | src/components/PDFPreview.tsx:25-27 | a left-to-right scan that accumulates digit values computes exactly the digit parse |
| NumericText.NatToDecimal | src/components/PDFPreview.tsx:24 | the rendering of `${n}` is a non-empty string of digits |
| NumericText.NatToDecimalRoundTrip | src/components/PDFPreview.tsx:24 | reading a rendered number back gives the number |
| NumericText.KeepDigitsAndDots | src/components/PDFPreview.tsx:57 | keeping digits and dots never lengthens the string |
| NumericText.LeadingDigits | src/components/PDFPreview.tsx:58 | the run that `parseInt` reads holds only digits |
| NumericText.BeforeFirstDot | src/components/PDFPreview.tsx:57-58 | the result is the prefix of the input before its first dot, or the whole input when it has no dot |
| NumericText.BeforeFirstDotNoDot | src/components/PDFPreview.tsx:57-58 | a string without a dot is kept whole |
| NumericText.LeadingRunIsDigitsBeforeDot | src/components/PDFPreview.tsx:56-58 | the leading digit run of the cleaned string is exactly the digits of the raw string before its first dot |
| NumericText.FormatValue | src/components/PDFPreview.tsx:56-59 | the formatter's number is the digit parse of the text before the first dot |
| NumericText.FormatValueIsParseBeforeDot | src/components/PDFPreview.tsx:56-58 | the formatter's number is the digit parse of the text before the first dot |
| NumericText.FormatValueZero | src/components/PDFPreview.tsx:58 | with no digit before the first dot the formatter's number is 0 |
| NumericText.FormatValueMillionSuffix | src/components/PDFPreview.tsx:56-58 | "1.2M" formats from 1 |
| NumericText.FormatValueThousands | src/components/PDFPreview.tsx:56-58 | "1,200" formats from 1200 |
| ChannelInfoStep.Init | src/components/ChannelInfoStep.tsx:17-18 | the form starts equal to the wizard's draft on every key, with an empty logo preview |
| ChannelInfoStep.InputChange | src/components/ChannelInfoStep.tsx:20-22 | the edited key takes the value; the other eleven keys and the preview are unchanged |
| ChannelInfoStep.InputChangeUndo | src/components/ChannelInfoStep.tsx:20-22 | re-entering a key's previous value restores the form state exactly |
| ChannelInfoStep.InputChangeLastWins | src/components/ChannelInfoStep.tsx:20-22 | of two edits of the same key the later one wins |
| ChannelInfoStep.LogoUpload | src/components/ChannelInfoStep.tsx:24-35 | with no file nothing changes; on read completion both the preview and the logo field hold the read result; no other key changes |
| ChannelInfoStep.GenerateComment | src/components/ChannelInfoStep.tsx:37-48 | the comment becomes one of the five canned sentences; every other key and the preview are unchanged |
| ChannelInfoStep.GenerateCommentOverwrites | src/components/ChannelInfoStep.tsx:46-47 | the generated comment does not depend on the previous one: it overwrites, it does not append |
| ChannelInfoStep.GenerateCommentRange | src/components/ChannelInfoStep.tsx:38-46 | a comment can be generated if and only if it is one of the five canned sentences |
| ChannelInfoStep.Submit | src/components/ChannelInfoStep.tsx:50-52 | the record handed on agrees with the form on every key |
| VideoDataStep.Init | src/components/VideoDataStep.tsx:19-20 | the form starts with the wizard's video list, entry by entry, and its comment |
| VideoDataStep.UpdateAt | src/components/VideoDataStep.tsx:23-25 | the positional map keeps the length, sets key f of entry `index` to v, and keeps every other key and entry |
| VideoDataStep.VideoChange | src/components/VideoDataStep.tsx:22-26 | the list length is kept; key f of entry `index` becomes v; other keys of that entry, other entries and the comment are unchanged; an index outside [0, length) changes nothing |
| VideoDataStep.VideoChangeUndo | src/components/VideoDataStep.tsx:22-26 | re-entering a field's previous value restores the list exactly |
| VideoDataStep.VideoChangeCommute | src/components/VideoDataStep.tsx:22-26 | edits at two different positions give the same list in either order |
| VideoDataStep.CommentChange | src/components/VideoDataStep.tsx:144 | the comment takes the typed text and the videos are untouched |
| VideoDataStep.GenerateComment | src/components/VideoDataStep.tsx:28-39 | the comment becomes one of the five canned sentences and the videos are untouched |
| VideoDataStep.GenerateCommentRange | src/components/VideoDataStep.tsx:29-37 | a comment can be generated if and only if it is one of the five canned sentences |
| VideoDataStep.Submit | src/components/VideoDataStep.tsx:41-43 | the list and comment handed on are the form's, entry by entry |
| AuditForm.Init | src/components/AuditForm.tsx:17-44 | step 1; all twelve channel keys ""; exactly five videos with all six keys ""; empty comment; the channel form mounted from the draft |
| AuditForm.Progress | src/components/AuditForm.tsx:46-47 | progress is 50 at step 1 and 100 at step 2 |
| AuditForm.ChannelDataComplete | src/components/AuditForm.tsx:49-52 | the channel draft becomes the submitted record; step 2; the video form is mounted from the unchanged video drafts |
| AuditForm.VideoDataComplete | src/components/AuditForm.tsx:54-66 | the drafts take the submitted videos and comment; the emitted audit holds the channel draft, those videos, that comment and an empty final comment |
| AuditForm.GoBack | src/components/AuditForm.tsx:68-74 | at step 1 the parent is signalled and nothing changes; at step 2 the step becomes 1; drafts are kept |
| AuditForm.VideoStepBack | src/components/AuditForm.tsx:110-116 | step 1 with all drafts unchanged, and the channel form remounted from the channel draft |
| AuditForm.Step | src/components/AuditForm.tsx:49-117 | each edit of the mounted form reaches that form's handler; the step-1 submit moves the form into the channel draft and mounts the video form at step 2; the step-2 submit completes with the video form's list and comment and an empty final comment; header back exits at step 1 and returns to step 1 at step 2, as the video form's back does; actions of the unmounted form change nothing; only these two signals are emitted, always with five videos |
| AuditForm.Run | src/pages/Index.tsx:57-62 | a run of wizard actions keeps the wizard well-formed; its stopping rule is stated by the two lemmas below |
| AuditForm.RunIgnoresAfterSignal | src/pages/Index.tsx:57-62 | once the wizard has signalled completion or exit, the page unmounts it: further actions change neither the wizard nor the signal |
| AuditForm.RunAppendQuiet | src/pages/Index.tsx:57-59 | while the wizard has not signalled it stays mounted: running two action sequences in turn equals running them joined |
| AuditForm.RunKeepsShape | src/components/AuditForm.tsx:54-66 | any audit the wizard emits, after any run of actions, has five videos and an empty final comment |
| AuditForm.BackDropsVideoEdits | src/components/AuditForm.tsx:115 | going back after a video edit gives the same wizard as going back without it |
| AuditForm.VideoFormEditsKeepDrafts | src/components/VideoDataStep.tsx:19-39 | edits inside the video form never reach the wizard's drafts or step |
| AuditForm.BackAndResubmitRestoresDrafts | src/components/AuditForm.tsx:110-116 | after video edits, back, and a channel resubmit, the video form shows the drafts as they were before the edits |
| PdfPreview.VideoLabel | src/components/PDFPreview.tsx:24 | the positional label is never empty |
| PdfPreview.VideoLabelNumber | src/components/PDFPreview.tsx:24 | the digits of entry i's label read back as i + 1 |
| PdfPreview.VideoLabelInjective | src/components/PDFPreview.tsx:24 | two labels are equal if and only if their positions are |
| PdfPreview.PerformanceData | src/components/PDFPreview.tsx:23-28 | same length as the video list, in order; entry i is "Video i+1" with the digit parses of video i's views, likes and comments |
| PdfPreview.SeoData | src/components/PDFPreview.tsx:30-33 | same length as the video list; entry i is "Video i+1" with the digit parse of video i's SEO score, not clamped |
| PdfPreview.EngagementDivisor | src/components/PDFPreview.tsx:36 | the divisor is at least 1; it equals the parsed views when they are positive and is 1 when they parse to 0 |
| PdfPreview.EngagementData | src/components/PDFPreview.tsx:35-42 | one point per video, labelled by position, with the parsed likes and the divisor (views, or 1 when they read as 0); the percentage is likes / divisor * 100, non-negative, and 0 exactly when the likes parse to 0 |
| PdfPreview.SeriesShareCategories | src/components/PDFPreview.tsx:23-42 | the three series have equal length and the same label at every position |
| PdfPreview.SeriesOfPrefix | src/components/PDFPreview.tsx:23-33 | the series of a prefix of the videos is the prefix of the series |
| PdfPreview.BlankVideoStaysInSeries | src/components/PDFPreview.tsx:23-42 | a blank entry is not filtered out: it charts as zeros, with engagement divisor 1 |
| PdfPreview.PieData | src/components/PDFPreview.tsx:44-48 | three slices, Views 60, Likes 25 and Comments 15: values summing to 100 in decreasing order |
| PdfPreview.LatestVideos | src/components/PDFPreview.tsx:220-229 | exactly the first min(3, n) entries in order, each with its title or "Video i+1" when the title is blank |
| PdfPreview.LatestTitlesNonEmpty | src/components/PDFPreview.tsx:223 | no row of the list shows an empty title |
| PdfPreview.LatestIgnoresTail | src/components/PDFPreview.tsx:220 | entries after the third do not affect the list |
| PdfPreview.Gate | src/components/PDFPreview.tsx:155 | a block is present if and only if its text is non-empty, and then shows that text |
| PdfPreview.SummaryCards | src/components/PDFPreview.tsx:111-132 | four cards in a fixed order, whatever the channel fields hold |
| PdfPreview.Render | src/components/PDFPreview.tsx:93-245 | the channel name; logo, channel-analysis, video-analysis and final-recommendations blocks each shown if and only if their text is non-empty, and then showing exactly that text; the four summary cards of the channel; the performance and SEO series and the latest-videos list of the video entries; the fixed pie |
| PdfPreview.RenderIgnoresPayloadFinalComment | src/components/PDFPreview.tsx:18-20 | the report does not depend on the payload's final comment, only on the page's own box |
| PdfPreview.PieAndCardsIndependentOfInput | src/components/PDFPreview.tsx:44-48 | every audit gets the same pie and the same number of cards |
| IndexPage.Init | src/pages/Index.tsx:41-42 | the page starts on the welcome screen with no audit |
| IndexPage.Start | src/pages/Index.tsx:49-51 | the form screen, with a freshly mounted wizard and the held audit unchanged |
| IndexPage.FormComplete | src/pages/Index.tsx:44-47 | the audit is held and the preview screen shows, with an empty final-comment box |
| IndexPage.ToForm | src/pages/Index.tsx:53-55 | the form screen, with the held audit kept and the wizard remounted from its initial state |
| IndexPage.FormBack | src/pages/Index.tsx:58 | the welcome screen, with the held audit kept |
| IndexPage.Render | src/pages/Index.tsx:57-65 | the wizard if and only if on the form screen; the report of the held audit with the comment box's text if and only if on preview with an audit; the welcome screen otherwise |
| IndexPage.Step | src/pages/Index.tsx:44-62 | start on the welcome view opens the form with a fresh wizard; a wizard action on the form view goes to the wizard, whose exit returns to welcome and whose completion stores the audit and shows the preview with an empty box; back on the report reopens the form; typing in the box sets its text; actions whose control is not shown change nothing; the preview screen always keeps an audit of five videos |
| IndexPage.Run | src/pages/Index.tsx:44-65 | any run of actions keeps the page well-formed |
| IndexPage.ReachableShowsReport | src/pages/Index.tsx:57-65 | in every reachable state, preview shows the report and never falls through to welcome; a held audit is never dropped |
| IndexPage.WelcomeUntilStart | src/pages/Index.tsx:49-51 | from the initial page nothing changes until the start button is pressed |
| IndexPage.CompletedAuditIsShown | src/components/AuditForm.tsx:54-66 | submitting step 2 shows a report of exactly the channel draft, the submitted videos and comment, and an empty final comment |
| IndexPage.FinalCommentReachesReport | src/components/PDFPreview.tsx:245-266 | text typed in the report page's box shows as the Final Recommendations block, which disappears when the box is emptied; nothing else in the report changes |
| IndexPage.BackToFormRestartsWizard | src/pages/Index.tsx:53-58 | back from the report keeps the audit, but the wizard restarts at step 1 with a blank channel draft |
| IndexPage.EndToEndSession | src/pages/Index.tsx:44-62 | a full session entering "Test Channel", "1.2M" and one video's "125K" views holds an audit of that entry plus four blank ones, and the report shown charts 125 views |

## Left out

- The channel form's lack of a text input for the logo: it sets the logo
  only through its file input (src/components/ChannelInfoStep.tsx:78-81),
  while the model also accepts a typed edit of that key. This admits more
  action sequences than the page does, and every stated property covers
  them as well.
- Layout, styling and the component library's widgets: presentation only.
- Chart drawing by the charting library. Only the data arrays handed to it
  are modelled.
- `window.print` (src/components/PDFPreview.tsx:52-54): a host side effect.
- The asynchronous `FileReader` read. Only its completion is modelled, as
  an assignment of an opaque data-URL string.
- `Math.random`: replaced by a `Pick` parameter in [0, 5).
- Date handling: the channel-age figure, from the host clock and date
  parser, and the locale date strings. The channel-age card keeps only
  the raw creation date.
- `Intl.NumberFormat` text: only the number passed to it
  (`NumericText.FormatValue`) is modelled. The page defines this formatter
  (src/components/PDFPreview.tsx:56-59) but never calls it, so
  `FormatValue` feeds nothing in `PdfPreview.Report`.
- NumericText.DigitParse: JavaScript `parseInt` returns a double, which
  loses precision past about 15 digits. The model reads digits into an
  unbounded `nat`.
- PdfPreview.EngagementData: the percentage is kept as an exact `real`.
  The `toFixed(2)` rounding to a string is not modelled. The series is
  computed by the page but never drawn.
- The report's plain detail lines (country, niche, link, 30-day figures)
  and the channel name header are shown unconditionally as raw text. The
  model carries only the channel name.
- React state batching and effects: each handler is modelled as one atomic
  update of the state it sets.

=== FILE: audit_form.dfy ===
/** The two-step wizard. It owns the step number and the drafts (channel
    record, five video entries, video comment), and mounts exactly one of
    the two forms: the channel form at step 1, the video form at step 2.
    A form is mounted afresh from the drafts each time its step is entered,
    so edits that were not submitted are lost when the step is left. */
module AuditForm {
  import opened AuditTypes
  import ChannelInfoStep
  import VideoDataStep

  /** The mounted form and its local state. */
  datatype Panel =
    | ChannelPanel(channelStep: ChannelInfoStep.State)
    | VideoPanel(videoStep: VideoDataStep.State)

  datatype Wizard = Wizard(
    step: int,
    channel: ChannelData,
    videos: seq<VideoData>,
    videoComment: string,
    panel: Panel)

  /** What the wizard reports to its parent after an event. */
  datatype Signal = Quiet | Completed(audit: AuditData) | Exit

  datatype Outcome = Outcome(next: Wizard, signal: Signal)

  /** The user's actions on the wizard: edits inside the mounted form, the
      forms' own buttons, and the header's back button. */
  datatype Event =
    | ChannelEdit(field: ChannelField, value: string)
    | LogoRead(read: Option<string>)
    | ChannelAiComment(pick: Pick)
    | ChannelSubmit
    | VideoEdit(index: int, vfield: VideoField, vvalue: string)
    | VideoCommentEdit(comment: string)
    | VideoAiComment(vpick: Pick)
    | VideoSubmit
    | VideoBack
    | HeaderBack

  const VideoCount: nat := 5

  /** Every state the wizard can be in: a step in {1, 2}, five video
      entries in the draft and in the mounted video form, and the form that
      matches the step. */
  predicate Valid(w: Wizard)
  {
    && (w.step == 1 || w.step == 2)
    && |w.videos| == VideoCount
    && (w.step == 1 <==> w.panel.ChannelPanel?)
    && (w.panel.VideoPanel? ==> |w.panel.videoStep.videos| == VideoCount)
  }

  function MountChannel(channel: ChannelData): Panel
  {
    ChannelPanel(ChannelInfoStep.Init(channel))
  }

  function MountVideos(videos: seq<VideoData>, comment: string): Panel
  {
    VideoPanel(VideoDataStep.Init(videos, comment))
  }

  /** The wizard as it mounts: step 1, a blank channel record, five blank
      video entries and an empty comment. */
  function Init(): (w: Wizard)
    ensures Valid(w)
    ensures w.step == 1
    ensures forall f :: GetChannel(w.channel, f) == ""
    ensures |w.videos| == 5
    ensures forall i, f :: 0 <= i < |w.videos| ==> GetVideo(w.videos[i], f) == ""
    ensures w.videoComment == ""
    ensures w.panel.ChannelPanel? && w.panel.channelStep.form == w.channel
  {
    var videos := seq(VideoCount, _ => EmptyVideo());
    Wizard(1, EmptyChannel(), videos, "", MountChannel(EmptyChannel()))
  }

  /** The progress bar: `(step / 2) * 100`. */
  function Progress(step: int): (p: int)
    requires step == 1 || step == 2
    ensures step == 1 ==> p == 50
    ensures step == 2 ==> p == 100
  {
    step * 100 / 2
  }

  /** Step 1 completed: the submitted record replaces the channel draft and
      the video form mounts from the video drafts. */
  function ChannelDataComplete(w: Wizard, data: ChannelData): (r: Wizard)
    requires Valid(w)
    ensures Valid(r)
    ensures r.step == 2
    ensures r.channel == data
    ensures r.videos == w.videos && r.videoComment == w.videoComment
    ensures r.panel.VideoPanel?
    ensures r.panel.videoStep.videos == w.videos && r.panel.videoStep.comment == w.videoComment
  {
    w.(step := 2, channel := data, panel := MountVideos(w.videos, w.videoComment))
  }

  /** Step 2 completed: the submitted videos and comment become the drafts,
      and the audit is assembled from the channel draft, the submitted
      videos and comment, and an empty final comment. */
  function VideoDataComplete(w: Wizard, videos: seq<VideoData>, comment: string): (o: Outcome)
    requires Valid(w)
    requires |videos| == VideoCount
    ensures Valid(o.next)
    ensures o.next.videos == videos && o.next.videoComment == comment
    ensures o.next.channel == w.channel && o.next.step == w.step
    ensures o.signal == Completed(AuditData(w.channel, videos, comment, ""))
  {
    Outcome(w.(videos := videos, videoComment := comment),
            Completed(AuditData(w.channel, videos, comment, "")))
  }

  /** The header's back button: at step 1 the parent is told to leave the
      wizard and the step stays; at step 2 the wizard returns to step 1,
      remounting the channel form from the channel draft. */
  function GoBack(w: Wizard): (o: Outcome)
    requires Valid(w)
    ensures Valid(o.next)
    ensures w.step == 1 ==> o.signal == Exit && o.next == w
    ensures w.step == 2 ==> o.signal == Quiet && o.next.step == 1
    ensures o.next.channel == w.channel && o.next.videos == w.videos
    ensures o.next.videoComment == w.videoComment
  {
    if w.step == 1 then Outcome(w, Exit)
    else Outcome(w.(step := w.step - 1, panel := MountChannel(w.channel)), Quiet)
  }

  /** The video form's own back button: `setCurrentStep(1)`. The drafts
      are not touched, so the video form's unsubmitted edits are dropped. */
  function VideoStepBack(w: Wizard): (r: Wizard)
    requires Valid(w)
    ensures Valid(r)
    ensures r.step == 1
    ensures r.channel == w.channel && r.videos == w.videos && r.videoComment == w.videoComment
    ensures r.panel.ChannelPanel? && r.panel.channelStep.form == w.channel
  {
    w.(step := 1, panel := MountChannel(w.channel))
  }

  /** The actions the channel form offers. */
  predicate ChannelAction(e: Event)
  {
    e.ChannelEdit? || e.LogoRead? || e.ChannelAiComment? || e == ChannelSubmit
  }

  /** The actions the video form offers. */
  predicate VideoAction(e: Event)
  {
    e.VideoEdit? || e.VideoCommentEdit? || e.VideoAiComment? || e == VideoSubmit || e == VideoBack
  }

  /** One user action. Each action of the mounted form reaches that form's
      handler; actions of the form that is not mounted have no control to
      come from and change nothing. The header's back button is always
      there. A `ChannelEdit` is accepted for every key, the logo included,
      although the channel form sets the logo only through its file input:
      a typed logo is a superset of what the page can produce. */
  function Step(w: Wizard, e: Event): (o: Outcome)
    requires Valid(w)
    ensures Valid(o.next)
    ensures o.signal.Completed? ==> e == VideoSubmit && |o.signal.audit.videoData| == VideoCount
    ensures o.signal.Exit? ==> e == HeaderBack && w.step == 1
    // step 1: the channel form
    ensures w.step == 1 && e.ChannelEdit? ==>
              o == Outcome(w.(panel := ChannelPanel(ChannelInfoStep.InputChange(w.panel.channelStep, e.field, e.value))), Quiet)
    ensures w.step == 1 && e.LogoRead? ==>
              o == Outcome(w.(panel := ChannelPanel(ChannelInfoStep.LogoUpload(w.panel.channelStep, e.read))), Quiet)
    ensures w.step == 1 && e.ChannelAiComment? ==>
              o == Outcome(w.(panel := ChannelPanel(ChannelInfoStep.GenerateComment(w.panel.channelStep, e.pick))), Quiet)
    ensures w.step == 1 && e == ChannelSubmit ==>
              && o.signal.Quiet? && o.next.step == 2
              && o.next.channel == w.panel.channelStep.form
              && o.next.videos == w.videos && o.next.videoComment == w.videoComment
              && o.next.panel == MountVideos(w.videos, w.videoComment)
    ensures w.step == 1 && e == HeaderBack ==> o == Outcome(w, Exit)
    ensures w.step == 1 && VideoAction(e) ==> o == Outcome(w, Quiet)
    // step 2: the video form
    ensures w.step == 2 && e.VideoEdit? ==>
              o == Outcome(w.(panel := VideoPanel(VideoDataStep.VideoChange(w.panel.videoStep, e.index, e.vfield, e.vvalue))), Quiet)
    ensures w.step == 2 && e.VideoCommentEdit? ==>
              o == Outcome(w.(panel := VideoPanel(VideoDataStep.CommentChange(w.panel.videoStep, e.comment))), Quiet)
    ensures w.step == 2 && e.VideoAiComment? ==>
              o == Outcome(w.(panel := VideoPanel(VideoDataStep.GenerateComment(w.panel.videoStep, e.vpick))), Quiet)
    ensures w.step == 2 && e == VideoSubmit ==>
              && o.signal == Completed(AuditData(w.channel, w.panel.videoStep.videos, w.panel.videoStep.comment, ""))
              && o.next.videos == w.panel.videoStep.videos
              && o.next.videoComment == w.panel.videoStep.comment
    ensures w.step == 2 && (e == VideoBack || e == HeaderBack) ==> o == Outcome(VideoStepBack(w), Quiet)
    ensures w.step == 2 && ChannelAction(e) ==> o == Outcome(w, Quiet)
  {
    match w.panel
    case ChannelPanel(cs) =>
      (match e
       case ChannelEdit(f, v) =>
         Outcome(w.(panel := ChannelPanel(ChannelInfoStep.InputChange(cs, f, v))), Quiet)
       case LogoRead(read) =>
         Outcome(w.(panel := ChannelPanel(ChannelInfoStep.LogoUpload(cs, read))), Quiet)
       case ChannelAiComment(k) =>
         Outcome(w.(panel := ChannelPanel(ChannelInfoStep.GenerateComment(cs, k))), Quiet)
       case ChannelSubmit =>
         Outcome(ChannelDataComplete(w, ChannelInfoStep.Submit(cs)), Quiet)
       case HeaderBack => GoBack(w)
       case _ => Outcome(w, Quiet))
    case VideoPanel(vs) =>
      (match e
       case VideoEdit(i, f, v) =>
         Outcome(w.(panel := VideoPanel(VideoDataStep.VideoChange(vs, i, f, v))), Quiet)
       case VideoCommentEdit(c) =>
         Outcome(w.(panel := VideoPanel(VideoDataStep.CommentChange(vs, c))), Quiet)
       case VideoAiComment(k) =>
         Outcome(w.(panel := VideoPanel(VideoDataStep.GenerateComment(vs, k))), Quiet)
       case VideoSubmit =>
         var out := VideoDataStep.Submit(vs);
         VideoDataComplete(w, out.0, out.1)
       case VideoBack => Outcome(VideoStepBack(w), Quiet)
       case HeaderBack => GoBack(w)
       case _ => Outcome(w, Quiet))
  }

  /** A run of actions from a state, stopping at the first signal to the
      parent (the parent unmounts the wizard on either signal). */
  function Run(w: Wizard, es: seq<Event>): (o: Outcome)
    requires Valid(w)
    ensures Valid(o.next)
    decreases |es|
  {
    if es == [] then Outcome(w, Quiet)
    else
      var o := Step(w, es[0]);
      if o.signal.Quiet? then Run(o.next, es[1..]) else o
  }

  /** Once the wizard has signalled the page it is unmounted: later actions
      have no control to come from and change neither the wizard nor the
      signal. */
  lemma {:induction false} RunIgnoresAfterSignal(w: Wizard, es: seq<Event>, more: seq<Event>)
    requires Valid(w)
    requires !Run(w, es).signal.Quiet?
    ensures Run(w, es + more) == Run(w, es)
    decreases |es|
  {
    assert es != [];
    assert (es + more)[0] == es[0];
    assert (es + more)[1..] == es[1..] + more;
    var o := Step(w, es[0]);
    if o.signal.Quiet? {
      RunIgnoresAfterSignal(o.next, es[1..], more);
    }
  }

  /** A run that has not signalled yet can be continued: running two
      sequences of actions one after the other is running them joined. */
  lemma {:induction false} RunAppendQuiet(w: Wizard, es: seq<Event>, more: seq<Event>)
    requires Valid(w)
    requires Run(w, es).signal.Quiet?
    ensures Run(w, es + more) == Run(Run(w, es).next, more)
    decreases |es|
  {
    if es == [] {
      assert es + more == more;
    } else {
      assert (es + more)[0] == es[0];
      assert (es + more)[1..] == es[1..] + more;
      RunAppendQuiet(Step(w, es[0]).next, es[1..], more);
    }
  }

  /** Every audit the wizard emits carries exactly five videos and an empty
      final comment. */
  lemma {:induction false} RunKeepsShape(w: Wizard, es: seq<Event>)
    requires Valid(w)
    ensures Run(w, es).signal.Completed? ==>
              |Run(w, es).signal.audit.videoData| == 5 && Run(w, es).signal.audit.finalComment == ""
    decreases |es|
  {
    if es != [] {
      var o := Step(w, es[0]);
      if o.signal.Quiet? {
        RunKeepsShape(o.next, es[1..]);
      }
    }
  }

  /** Unsubmitted video edits do not survive the video form's back button:
      going back after an edit gives the same wizard as going back at once. */
  lemma BackDropsVideoEdits(w: Wizard, i: int, f: VideoField, v: string)
    requires Valid(w) && w.step == 2
    ensures Step(Step(w, VideoEdit(i, f, v)).next, VideoBack) == Step(w, VideoBack)
  {
  }

  /** Actions that only change the mounted video form's local state. */
  predicate VideoFormEdit(e: Event)
  {
    e.VideoEdit? || e.VideoCommentEdit? || e.VideoAiComment?
  }

  /** Editing inside the video form never reaches the drafts: after any
      run of such edits the wizard is still at step 2 with the same drafts. */
  lemma {:induction false} VideoFormEditsKeepDrafts(w: Wizard, edits: seq<Event>)
    requires Valid(w) && w.step == 2
    requires forall i :: 0 <= i < |edits| ==> VideoFormEdit(edits[i])
    ensures Run(w, edits).signal.Quiet?
    ensures Run(w, edits).next.step == 2
    ensures Run(w, edits).next.channel == w.channel
    ensures Run(w, edits).next.videos == w.videos
    ensures Run(w, edits).next.videoComment == w.videoComment
    decreases |edits|
  {
    if edits != [] {
      VideoFormEditsKeepDrafts(Step(w, edits[0]).next, edits[1..]);
    }
  }

  /** Leaving step 2 with the video form's back button and submitting
      step 1 again mounts the video form from the drafts as they were
      before the edits: the typed values are gone. */
  lemma {:induction false} BackAndResubmitRestoresDrafts(w: Wizard, edits: seq<Event>)
    requires Valid(w) && w.step == 2
    requires forall i :: 0 <= i < |edits| ==> VideoFormEdit(edits[i])
    ensures var o := Step(Step(Run(w, edits).next, VideoBack).next, ChannelSubmit);
            && o.next.step == 2
            && o.next.panel.VideoPanel?
            && o.next.panel.videoStep.videos == w.videos
            && o.next.panel.videoStep.comment == w.videoComment
            && o.next.channel == w.channel
  {
    VideoFormEditsKeepDrafts(w, edits);
  }
}

=== FILE: audit_types.dfy ===
/** Records shared by every screen of the audit wizard: the channel metrics,
    the per-video metrics and the aggregate audit payload. Every field is
    free text; nothing is validated or parsed at entry time. */
module AuditTypes {

  datatype Option<+T> = None | Some(value: T)

  /** A fixed-pool choice: the index `Math.floor(Math.random() * 5)` picks
      from a five-sentence pool, so it always lies in [0, 5). */
  type Pick = k: nat | k < 5

  datatype ChannelData = ChannelData(
    channelName: string,
    channelLogo: string,
    totalSubscribers: string,
    totalViews: string,
    channelLink: string,
    country: string,
    niche: string,
    channelCreateDate: string,
    totalVideos: string,
    last30DayViews: string,
    last30DaySubscribers: string,
    channelComment: string)

  datatype VideoData = VideoData(
    title: string,
    views: string,
    likes: string,
    comments: string,
    seoScore: string,
    publishDate: string)

  datatype AuditData = AuditData(
    channelData: ChannelData,
    videoData: seq<VideoData>,
    videoComment: string,
    finalComment: string)

  /** The keys of ChannelData, as `keyof ChannelData` names them. */
  datatype ChannelField =
    | ChannelName | ChannelLogo | TotalSubscribers | TotalViews
    | ChannelLink | Country | Niche | ChannelCreateDate
    | TotalVideos | Last30DayViews | Last30DaySubscribers | ChannelComment

  /** The keys of VideoData. */
  datatype VideoField = Title | Views | Likes | Comments | SeoScore | PublishDate

  function GetChannel(c: ChannelData, f: ChannelField): string
  {
    match f
    case ChannelName => c.channelName
    case ChannelLogo => c.channelLogo
    case TotalSubscribers => c.totalSubscribers
    case TotalViews => c.totalViews
    case ChannelLink => c.channelLink
    case Country => c.country
    case Niche => c.niche
    case ChannelCreateDate => c.channelCreateDate
    case TotalVideos => c.totalVideos
    case Last30DayViews => c.last30DayViews
    case Last30DaySubscribers => c.last30DaySubscribers
    case ChannelComment => c.channelComment
  }

  /** `{ ...c, [f]: v }`: field f becomes v, the other eleven keep their values. */
  function SetChannel(c: ChannelData, f: ChannelField, v: string): (r: ChannelData)
    ensures GetChannel(r, f) == v
    ensures forall g :: g != f ==> GetChannel(r, g) == GetChannel(c, g)
  {
    match f
    case ChannelName => c.(channelName := v)
    case ChannelLogo => c.(channelLogo := v)
    case TotalSubscribers => c.(totalSubscribers := v)
    case TotalViews => c.(totalViews := v)
    case ChannelLink => c.(channelLink := v)
    case Country => c.(country := v)
    case Niche => c.(niche := v)
    case ChannelCreateDate => c.(channelCreateDate := v)
    case TotalVideos => c.(totalVideos := v)
    case Last30DayViews => c.(last30DayViews := v)
    case Last30DaySubscribers => c.(last30DaySubscribers := v)
    case ChannelComment => c.(channelComment := v)
  }

  function GetVideo(d: VideoData, f: VideoField): string
  {
    match f
    case Title => d.title
    case Views => d.views
    case Likes => d.likes
    case Comments => d.comments
    case SeoScore => d.seoScore
    case PublishDate => d.publishDate
  }

  /** `{ ...d, [f]: v }` on one video entry. */
  function SetVideo(d: VideoData, f: VideoField, v: string): (r: VideoData)
    ensures GetVideo(r, f) == v
    ensures forall g :: g != f ==> GetVideo(r, g) == GetVideo(d, g)
  {
    match f
    case Title => d.(title := v)
    case Views => d.(views := v)
    case Likes => d.(likes := v)
    case Comments => d.(comments := v)
    case SeoScore => d.(seoScore := v)
    case PublishDate => d.(publishDate := v)
  }

  /** Two channel records that agree on every key are the same record. */
  lemma ChannelExtensional(a: ChannelData, b: ChannelData)
    requires forall f :: GetChannel(a, f) == GetChannel(b, f)
    ensures a == b
  {
    assert GetChannel(a, ChannelName) == GetChannel(b, ChannelName);
    assert GetChannel(a, ChannelLogo) == GetChannel(b, ChannelLogo);
    assert GetChannel(a, TotalSubscribers) == GetChannel(b, TotalSubscribers);
    assert GetChannel(a, TotalViews) == GetChannel(b, TotalViews);
    assert GetChannel(a, ChannelLink) == GetChannel(b, ChannelLink);
    assert GetChannel(a, Country) == GetChannel(b, Country);
    assert GetChannel(a, Niche) == GetChannel(b, Niche);
    assert GetChannel(a, ChannelCreateDate) == GetChannel(b, ChannelCreateDate);
    assert GetChannel(a, TotalVideos) == GetChannel(b, TotalVideos);
    assert GetChannel(a, Last30DayViews) == GetChannel(b, Last30DayViews);
    assert GetChannel(a, Last30DaySubscribers) == GetChannel(b, Last30DaySubscribers);
    assert GetChannel(a, ChannelComment) == GetChannel(b, ChannelComment);
  }

  /** Two video records that agree on every key are the same record. */
  lemma VideoExtensional(a: VideoData, b: VideoData)
    requires forall f :: GetVideo(a, f) == GetVideo(b, f)
    ensures a == b
  {
    assert GetVideo(a, Title) == GetVideo(b, Title);
    assert GetVideo(a, Views) == GetVideo(b, Views);
    assert GetVideo(a, Likes) == GetVideo(b, Likes);
    assert GetVideo(a, Comments) == GetVideo(b, Comments);
    assert GetVideo(a, SeoScore) == GetVideo(b, SeoScore);
    assert GetVideo(a, PublishDate) == GetVideo(b, PublishDate);
  }

  /** Writing a field back to its previous value undoes a field update. */
  lemma SetChannelUndo(c: ChannelData, f: ChannelField, v: string)
    ensures SetChannel(SetChannel(c, f, v), f, GetChannel(c, f)) == c
  {
    ChannelExtensional(SetChannel(SetChannel(c, f, v), f, GetChannel(c, f)), c);
  }

  /** Writing a video field back to its previous value undoes the update. */
  lemma SetVideoUndo(d: VideoData, f: VideoField, v: string)
    ensures SetVideo(SetVideo(d, f, v), f, GetVideo(d, f)) == d
  {
    VideoExtensional(SetVideo(SetVideo(d, f, v), f, GetVideo(d, f)), d);
  }

  /** The blank channel record the wizard starts from: all twelve fields "". */
  function EmptyChannel(): (c: ChannelData)
    ensures forall f :: GetChannel(c, f) == ""
  {
    ChannelData("", "", "", "", "", "", "", "", "", "", "", "")
  }

  /** The blank video entry: all six fields "". */
  function EmptyVideo(): (d: VideoData)
    ensures forall f :: GetVideo(d, f) == ""
  {
    VideoData("", "", "", "", "", "")
  }
}

=== FILE: channel_info_step.dfy ===
/** Step 1 of the wizard: the channel-information form. While mounted it
    holds its own copy of the channel record and a logo preview; the
    wizard sees the record only when the form is submitted. */
module ChannelInfoStep {
  import opened AuditTypes

  datatype State = State(form: ChannelData, logoPreview: string)

  /** The five canned channel comments the comment generator picks from. */
  const CommentPool: seq<string> := [
    "This channel shows strong potential for growth with consistent content delivery and good engagement metrics.",
    "The subscriber-to-view ratio indicates healthy audience engagement and content relevance.",
    "Based on the data, this channel demonstrates solid performance in its niche with room for optimization.",
    "The channel metrics suggest a well-established presence with opportunities for strategic improvements.",
    "Strong foundation metrics indicate this channel is positioned well for continued growth and success."
  ]

  /** Mounting the form: it starts from the wizard's draft, with no preview. */
  function Init(initial: ChannelData): (s: State)
    ensures forall f :: GetChannel(s.form, f) == GetChannel(initial, f)
    ensures s.logoPreview == ""
  {
    State(initial, "")
  }

  /** An edit of one input: only that field of the form changes. */
  function InputChange(s: State, f: ChannelField, v: string): (r: State)
    ensures GetChannel(r.form, f) == v
    ensures forall g :: g != f ==> GetChannel(r.form, g) == GetChannel(s.form, g)
    ensures r.logoPreview == s.logoPreview
  {
    s.(form := SetChannel(s.form, f, v))
  }

  /** Re-entering a field's previous value restores the form exactly. */
  lemma InputChangeUndo(s: State, f: ChannelField, v: string)
    ensures InputChange(InputChange(s, f, v), f, GetChannel(s.form, f)) == s
  {
    SetChannelUndo(s.form, f, v);
  }

  /** Of two edits of the same field, the later one wins. */
  lemma InputChangeLastWins(s: State, f: ChannelField, v: string, w: string)
    ensures InputChange(InputChange(s, f, v), f, w) == InputChange(s, f, w)
  {
    var a := InputChange(InputChange(s, f, v), f, w);
    var b := InputChange(s, f, w);
    ChannelExtensional(a.form, b.form);
  }

  /** The logo picker. `None` is a change event with no file selected and
      changes nothing; `Some(url)` is the completed read of the selected
      file, whose data URL becomes both the preview and the logo field. */
  function LogoUpload(s: State, read: Option<string>): (r: State)
    ensures read.None? ==> r == s
    ensures read.Some? ==> r.logoPreview == read.value && r.form.channelLogo == read.value
    ensures forall g :: g != ChannelLogo ==> GetChannel(r.form, g) == GetChannel(s.form, g)
  {
    match read
    case None => s
    case Some(url) => InputChange(s.(logoPreview := url), ChannelLogo, url)
  }

  /** The comment generator: the comment field is overwritten, not
      appended to, with one of the five canned sentences. */
  function GenerateComment(s: State, k: Pick): (r: State)
    ensures r.form.channelComment in CommentPool
    ensures forall g :: g != ChannelComment ==> GetChannel(r.form, g) == GetChannel(s.form, g)
    ensures r.logoPreview == s.logoPreview
  {
    InputChange(s, ChannelComment, CommentPool[k])
  }

  /** Whatever the comment held before, the generated comment is the same:
      the previous text does not survive in it. */
  lemma GenerateCommentOverwrites(s: State, t: State, k: Pick)
    ensures GenerateComment(s, k).form.channelComment == GenerateComment(t, k).form.channelComment
  {
  }

  /** Every canned sentence can be produced, and nothing outside the pool. */
  lemma GenerateCommentRange(s: State, c: string)
    ensures c in CommentPool <==> exists k: Pick :: GenerateComment(s, k).form.channelComment == c
  {
    if c in CommentPool {
      var k :| 0 <= k < |CommentPool| && CommentPool[k] == c;
      assert GenerateComment(s, k).form.channelComment == c;
    }
  }

  /** Submitting hands the current form to the wizard. */
  function Submit(s: State): (d: ChannelData)
    ensures forall f :: GetChannel(d, f) == GetChannel(s.form, f)
  {
    s.form
  }
}

=== FILE: index_page.dfy ===
/** The top-level screen controller: a screen selector (welcome, form,
    preview) and the audit held for the report. The wizard is rendered
    only on the form screen and the report only on the preview screen,
    so each is mounted afresh, from its initial state, whenever its
    screen is entered. */
module IndexPage {
  import opened AuditTypes
  import AuditForm
  import PdfPreview
  import NumericText

  datatype Screen = Welcome | Form | Preview

  /** The controller's state, together with the local state of whichever
      child is mounted: the wizard on the form screen, the report page's
      final-comment box on the preview screen. */
  datatype App = App(
    screen: Screen,
    audit: Option<AuditData>,
    wizard: AuditForm.Wizard,
    finalComment: string)

  /** What the page shows. */
  datatype View =
    | WelcomeView
    | FormView(wizard: AuditForm.Wizard)
    | ReportView(report: PdfPreview.Report)

  datatype Event =
    | StartAudit
    | InForm(e: AuditForm.Event)
    | BackToForm
    | FinalCommentEdit(text: string)

  predicate Valid(app: App)
  {
    && AuditForm.Valid(app.wizard)
    && (app.screen == Preview ==> app.audit.Some?)
    && (app.audit.Some? ==> |app.audit.value.videoData| == 5)
  }

  /** The page as first loaded: the welcome screen, no audit. */
  function Init(): (app: App)
    ensures Valid(app)
    ensures app.screen == Welcome && app.audit == None
  {
    App(Welcome, None, AuditForm.Init(), "")
  }

  /** The welcome screen's start button: the form screen, with the wizard
      mounted from its initial state. */
  function Start(app: App): (r: App)
    requires Valid(app)
    ensures Valid(r)
    ensures r.screen == Form && r.wizard == AuditForm.Init()
    ensures r.audit == app.audit
  {
    app.(screen := Form, wizard := AuditForm.Init())
  }

  /** The wizard finished: the audit is held and the preview screen shows,
      with the report page's comment box empty. */
  function FormComplete(app: App, d: AuditData): (r: App)
    requires Valid(app)
    requires |d.videoData| == 5
    ensures Valid(r)
    ensures r.screen == Preview && r.audit == Some(d)
    ensures r.finalComment == ""
  {
    app.(screen := Preview, audit := Some(d), finalComment := "")
  }

  /** The report's back button: the form screen again, the held audit is
      kept, and the wizard mounts from its initial state (its drafts went
      away with it when the preview screen replaced it). */
  function ToForm(app: App): (r: App)
    requires Valid(app)
    ensures Valid(r)
    ensures r.screen == Form && r.audit == app.audit
    ensures r.wizard == AuditForm.Init()
  {
    app.(screen := Form, wizard := AuditForm.Init())
  }

  /** The wizard's exit: the welcome screen. */
  function FormBack(app: App): (r: App)
    requires Valid(app)
    ensures Valid(r)
    ensures r.screen == Welcome && r.audit == app.audit
  {
    app.(screen := Welcome)
  }

  /** Screen selection: the wizard on the form screen, the report on the
      preview screen when an audit is held, the welcome screen otherwise. */
  function Render(app: App): (v: View)
    ensures v.FormView? <==> app.screen == Form
    ensures v.ReportView? <==> app.screen == Preview && app.audit.Some?
    ensures v.WelcomeView? <==> app.screen == Welcome || (app.screen == Preview && app.audit.None?)
    ensures v.FormView? ==> v.wizard == app.wizard
    ensures v.ReportView? ==> v.report == PdfPreview.Render(app.audit.value, app.finalComment)
  {
    if app.screen == Form then FormView(app.wizard)
    else if app.screen == Preview && app.audit.Some? then
      ReportView(PdfPreview.Render(app.audit.value, app.finalComment))
    else
      assert app.screen == Welcome || app.screen == Preview;
      WelcomeView
  }

  /** One user action, delivered only if the shown view offers its control:
      start on the welcome view, wizard actions on the form view, back and
      the comment box on the report view. A wizard action is handed to the
      wizard, and its signal decides the screen. */
  function Step(app: App, e: Event): (r: App)
    requires Valid(app)
    ensures Valid(r)
    ensures e.StartAudit? ==> r == if Render(app).WelcomeView? then Start(app) else app
    ensures e.BackToForm? ==> r == if Render(app).ReportView? then ToForm(app) else app
    ensures e.FinalCommentEdit? ==>
              r == if Render(app).ReportView? then app.(finalComment := e.text) else app
    ensures e.InForm? && !Render(app).FormView? ==> r == app
    ensures e.InForm? && Render(app).FormView? ==>
              var o := AuditForm.Step(app.wizard, e.e);
              && (o.signal.Quiet? ==> r == app.(wizard := o.next))
              && (o.signal.Exit? ==> r.screen == Welcome && r.audit == app.audit)
              && (o.signal.Completed? ==>
                    r.screen == Preview && r.audit == Some(o.signal.audit) && r.finalComment == "")
  {
    var view := Render(app);
    match e
    case StartAudit => if view.WelcomeView? then Start(app) else app
    case InForm(we) =>
      if !view.FormView? then app
      else
        var o := AuditForm.Step(app.wizard, we);
        (match o.signal
         case Quiet => app.(wizard := o.next)
         case Completed(d) => FormComplete(app.(wizard := o.next), d)
         case Exit => FormBack(app.(wizard := o.next)))
    case BackToForm => if view.ReportView? then ToForm(app) else app
    case FinalCommentEdit(text) =>
      if view.ReportView? then app.(finalComment := text) else app
  }

  function Run(app: App, es: seq<Event>): (r: App)
    requires Valid(app)
    ensures Valid(r)
    decreases |es|
  {
    if es == [] then app else Run(Step(app, es[0]), es[1..])
  }

  /** In every reachable state the preview screen has an audit to show, so
      the welcome screen is never reached by falling through from preview,
      and once an audit is held it stays held. */
  lemma {:induction false} ReachableShowsReport(app: App, es: seq<Event>)
    requires Valid(app)
    ensures Run(app, es).screen == Preview <==> Render(Run(app, es)).ReportView?
    ensures app.audit.Some? ==> Run(app, es).audit.Some?
    decreases |es|
  {
    if es != [] {
      ReachableShowsReport(Step(app, es[0]), es[1..]);
    }
  }

  /** From the initial page only the welcome screen is shown until the
      start button is pressed; every later screen is reached through it. */
  lemma {:induction false} WelcomeUntilStart(es: seq<Event>)
    requires forall i :: 0 <= i < |es| ==> !es[i].StartAudit?
    ensures Run(Init(), es) == Init()
    decreases |es|
  {
    if es != [] {
      assert Step(Init(), es[0]) == Init();
      WelcomeUntilStart(es[1..]);
    }
  }

  /** The report shown is the audit the wizard completed: its channel
      draft, its submitted videos and comment, and an empty final-comment
      box. */
  lemma CompletedAuditIsShown(app: App)
    requires Valid(app) && app.screen == Form && app.wizard.step == 2
    requires app.wizard.panel.VideoPanel?
    ensures var r := Step(app, InForm(AuditForm.VideoSubmit));
            var vs := app.wizard.panel.videoStep;
            && r.screen == Preview
            && r.audit == Some(AuditData(app.wizard.channel, vs.videos, vs.comment, ""))
            && Render(r) == ReportView(PdfPreview.Render(r.audit.value, ""))
  {
  }

  /** Typing in the report page's comment box changes only the Final
      Recommendations block: it shows the typed text, or disappears when
      the box is emptied, and the rest of the report stays as it was. */
  lemma FinalCommentReachesReport(app: App, text: string)
    requires Valid(app) && app.screen == Preview
    ensures var r := Step(app, FinalCommentEdit(text));
            && r.screen == Preview && r.audit == app.audit
            && Render(r).ReportView?
            && Render(r).report.finalRecommendations == (if text == "" then None else Some(text))
            && Render(r).report == Render(app).report.(finalRecommendations := Render(r).report.finalRecommendations)
  {
  }

  /** The report's back button returns to the form screen still holding
      the audit, but the wizard starts again at step 1 from a blank channel
      draft: the values entered before are not shown again. */
  lemma BackToFormRestartsWizard(app: App)
    requires Valid(app) && app.screen == Preview
    ensures var r := Step(app, BackToForm);
            && r.screen == Form && r.audit == app.audit
            && r.wizard.step == 1
            && forall f :: GetChannel(r.wizard.channel, f) == ""
  {
  }

  /** A whole session: start, name the channel "Test Channel" with
      "1.2M" subscribers, submit step 1, enter "125K" views for the first
      video and submit step 2. The audit holds that one filled entry and
      four blank ones, and the report shown charts its views as 125. */
  lemma EndToEndSession()
    ensures var r := Run(Init(), [
                StartAudit,
                InForm(AuditForm.ChannelEdit(ChannelName, "Test Channel")),
                InForm(AuditForm.ChannelEdit(TotalSubscribers, "1.2M")),
                InForm(AuditForm.ChannelSubmit),
                InForm(AuditForm.VideoEdit(0, Views, "125K")),
                InForm(AuditForm.VideoSubmit)]);
            && r.screen == Preview
            && r.audit.Some?
            && r.audit.value.channelData.channelName == "Test Channel"
            && r.audit.value.channelData.totalSubscribers == "1.2M"
            && r.audit.value.videoData[0] == EmptyVideo().(views := "125K")
            && (forall i :: 1 <= i < 5 ==> r.audit.value.videoData[i] == EmptyVideo())
            && Render(r).ReportView?
            && Render(r).report.performance[0].views == 125
  {
    var e0, e1, e2 := StartAudit, InForm(AuditForm.ChannelEdit(ChannelName, "Test Channel")),
      InForm(AuditForm.ChannelEdit(TotalSubscribers, "1.2M"));
    var e3, e4, e5 := InForm(AuditForm.ChannelSubmit), InForm(AuditForm.VideoEdit(0, Views, "125K")),
      InForm(AuditForm.VideoSubmit);
    var a0 := Step(Init(), e0);
    assert a0 == Start(Init());
    var a1 := Step(a0, e1);
    var a2 := Step(a1, e2);
    var a3 := Step(a2, e3);
    assert a3.screen == Form && a3.wizard.step == 2;
    assert a3.wizard.channel.channelName == "Test Channel";
    assert a3.wizard.channel.totalSubscribers == "1.2M";
    var a4 := Step(a3, e4);
    assert a4.wizard.panel.videoStep.videos[0] == EmptyVideo().(views := "125K");
    var a5 := Step(a4, e5);
    assert a5.screen == Preview;
    assert a5.audit.value.channelData.channelName == "Test Channel";
    assert a5.audit.value.videoData[0] == EmptyVideo().(views := "125K");
    assert Run(a5, []) == a5;
    assert Run(a4, [e5]) == a5;
    assert Run(a3, [e4, e5]) == a5;
    assert Run(a2, [e3, e4, e5]) == a5;
    assert Run(a1, [e2, e3, e4, e5]) == a5;
    assert Run(a0, [e1, e2, e3, e4, e5]) == a5;
    assert Run(Init(), [e0, e1, e2, e3, e4, e5]) == a5;
    assert Render(a5) == ReportView(PdfPreview.Render(a5.audit.value, a5.finalComment));
    NumericText.DigitParseThousandsSuffix();
  }
}

=== FILE: numeric_text.dfy ===
/** The report's string-to-number rules. Metric fields are free text
    ("1.2M", "125K", "85/100"); the report turns them into chart values by
    keeping only the decimal digits and reading them as one number, and the
    number formatter reads the leading digit run before the first dot.
    Numbers are unbounded `nat`s here, where JavaScript `parseInt` returns
    a double. */
module NumericText {

  /** `\d` in a JavaScript regular expression: the ASCII digits only. */
  predicate IsDigit(c: char)
  {
    '0' <= c <= '9'
  }

  predicate AllDigits(s: string)
  {
    forall i :: 0 <= i < |s| ==> IsDigit(s[i])
  }

  predicate NoDigits(s: string)
  {
    forall i :: 0 <= i < |s| ==> !IsDigit(s[i])
  }

  function DigitValue(c: char): (d: nat)
    requires IsDigit(c)
    ensures d < 10
  {
    c as int - '0' as int
  }

  function DigitChar(d: nat): (c: char)
    requires d < 10
    ensures IsDigit(c) && DigitValue(c) == d
  {
    ('0' as int + d) as char
  }

  function Pow10(k: nat): (p: nat)
    ensures p >= 1
  {
    if k == 0 then 1 else 10 * Pow10(k - 1)
  }

  /** `s.replace(/[^\d]/g, '')`: the digits of s, in order. */
  function KeepDigits(s: string): (r: string)
    ensures AllDigits(r)
    ensures |r| <= |s|
  {
    if s == [] then []
    else (if IsDigit(s[0]) then [s[0]] else []) + KeepDigits(s[1..])
  }

  /** The value of a digit string read in base ten, most significant first. */
  function DecimalValue(ds: string): nat
    requires AllDigits(ds)
  {
    if ds == [] then 0
    else DecimalValue(ds[..|ds| - 1]) * 10 + DigitValue(ds[|ds| - 1])
  }

  /** `parseInt(s.replace(/[^\d]/g, '')) || 0`. An empty digit string makes
      `parseInt` return NaN, which `|| 0` turns into 0, the value of the
      empty digit string here. */
  function DigitParse(s: string): (n: nat)
    ensures NoDigits(s) ==> n == 0
    ensures AllDigits(s) ==> n == DecimalValue(s)
  {
    KeepDigitsOfExtremes(s);
    DecimalValue(KeepDigits(s))
  }

  lemma {:induction false} KeepDigitsAppend(a: string, b: string)
    ensures KeepDigits(a + b) == KeepDigits(a) + KeepDigits(b)
  {
    if a == [] {
      assert a + b == b;
    } else {
      assert (a + b)[0] == a[0];
      assert (a + b)[1..] == a[1..] + b;
      KeepDigitsAppend(a[1..], b);
    }
  }

  lemma ShiftStep(a: nat, b: nat, p: nat, d: nat)
    ensures (a * p + b) * 10 + d == a * (10 * p) + (b * 10 + d)
  {
  }

  lemma AllDigitsAppend(x: string, y: string)
    requires AllDigits(x) && AllDigits(y)
    ensures AllDigits(x + y)
  {
    forall i | 0 <= i < |x + y|
      ensures IsDigit((x + y)[i])
    {
      if i < |x| { assert (x + y)[i] == x[i]; } else { assert (x + y)[i] == y[i - |x|]; }
    }
  }

  lemma {:induction false} DecimalValueAppend(x: string, y: string)
    requires AllDigits(x) && AllDigits(y)
    ensures AllDigits(x + y)
    ensures DecimalValue(x + y) == DecimalValue(x) * Pow10(|y|) + DecimalValue(y)
  {
    AllDigitsAppend(x, y);
    if y == [] {
      assert x + y == x;
    } else {
      var y', d := y[..|y| - 1], y[|y| - 1];
      assert (x + y)[..|x + y| - 1] == x + y';
      assert (x + y)[|x + y| - 1] == d;
      DecimalValueAppend(x, y');
      ShiftStep(DecimalValue(x), DecimalValue(y'), Pow10(|y'|), DigitValue(d));
    }
  }

  /** Stripping the non-digits of a string that holds only digits keeps it. */
  lemma {:induction false} KeepDigitsOfDigits(s: string)
    requires AllDigits(s)
    ensures KeepDigits(s) == s
  {
    if s != [] {
      KeepDigitsOfDigits(s[1..]);
    }
  }

  /** A string without digits strips to the empty string. */
  lemma {:induction false} KeepDigitsOfNoDigits(s: string)
    requires NoDigits(s)
    ensures KeepDigits(s) == []
  {
    if s != [] {
      KeepDigitsOfNoDigits(s[1..]);
    }
  }

  /** The two ends of stripping: a digit-free string goes to "", a string
      of digits stays as it is. */
  lemma KeepDigitsOfExtremes(s: string)
    ensures NoDigits(s) ==> KeepDigits(s) == []
    ensures AllDigits(s) ==> KeepDigits(s) == s
  {
    if NoDigits(s) {
      KeepDigitsOfNoDigits(s);
    }
    if AllDigits(s) {
      KeepDigitsOfDigits(s);
    }
  }

  /** Stripping is idempotent. */
  lemma KeepDigitsIdempotent(s: string)
    ensures KeepDigits(KeepDigits(s)) == KeepDigits(s)
  {
    KeepDigitsOfDigits(KeepDigits(s));
  }

  /** "N/A", "" and every other digit-free string read as 0. */
  lemma NoDigitsParsesToZero(s: string)
    requires NoDigits(s)
    ensures DigitParse(s) == 0
  {
    KeepDigitsOfNoDigits(s);
  }

  /** The digits of a concatenation are read as one number: the digits of a
      are shifted left by as many places as b holds digits. This is why
      "1.2M" reads as 12 rather than 1.2 million. */
  lemma DigitParseAppend(a: string, b: string)
    ensures DigitParse(a + b) == DigitParse(a) * Pow10(|KeepDigits(b)|) + DigitParse(b)
  {
    KeepDigitsAppend(a, b);
    DecimalValueAppend(KeepDigits(a), KeepDigits(b));
  }

  lemma KeepDigitsCons(c: char, s: string)
    ensures KeepDigits([c] + s) == (if IsDigit(c) then [c] else []) + KeepDigits(s)
  {
    assert ([c] + s)[1..] == s;
  }

  lemma DecimalValueSnoc(ds: string, c: char)
    requires AllDigits(ds) && IsDigit(c)
    ensures AllDigits(ds + [c])
    ensures DecimalValue(ds + [c]) == DecimalValue(ds) * 10 + DigitValue(c)
  {
    assert (ds + [c])[..|ds|] == ds;
  }

  /** "1.2M" reads as 12: the dot and the suffix are dropped, not honoured. */
  lemma DigitParseMillionSuffix()
    ensures DigitParse("1.2M") == 12
  {
    assert "1.2M" == ['1'] + ['.'] + ['2'] + ['M'];
    KeepDigitsCons('M', []);
    KeepDigitsCons('2', ['M']);
    KeepDigitsCons('.', ['2', 'M']);
    KeepDigitsCons('1', ['.', '2', 'M']);
    assert KeepDigits("1.2M") == ['1', '2'];
    DecimalValueSnoc([], '1');
    DecimalValueSnoc(['1'], '2');
  }

  /** "85/100" reads as 85100: the slash is dropped and both halves join. */
  lemma DigitParseFraction()
    ensures DigitParse("85/100") == 85100
  {
    KeepDigitsCons('0', []);
    KeepDigitsCons('0', ['0']);
    KeepDigitsCons('1', ['0', '0']);
    KeepDigitsCons('/', ['1', '0', '0']);
    KeepDigitsCons('5', ['/', '1', '0', '0']);
    KeepDigitsCons('8', ['5', '/', '1', '0', '0']);
    assert "85/100" == ['8', '5', '/', '1', '0', '0'];
    assert KeepDigits("85/100") == ['8', '5', '1', '0', '0'];
    DecimalValueSnoc([], '8');
    assert [] + ['8'] == ['8'];
    DecimalValueSnoc(['8'], '5');
    assert ['8'] + ['5'] == ['8', '5'];
    assert DecimalValue(['8', '5']) == 85;
    DecimalValueSnoc(['8', '5'], '1');
    assert ['8', '5'] + ['1'] == ['8', '5', '1'];
    assert DecimalValue(['8', '5', '1']) == 851;
    DecimalValueSnoc(['8', '5', '1'], '0');
    assert ['8', '5', '1'] + ['0'] == ['8', '5', '1', '0'];
    assert DecimalValue(['8', '5', '1', '0']) == 8510;
    DecimalValueSnoc(['8', '5', '1', '0'], '0');
    assert ['8', '5', '1', '0'] + ['0'] == ['8', '5', '1', '0', '0'];
  }

  /** "125K" reads as 125: the suffix is dropped, not honoured. */
  lemma DigitParseThousandsSuffix()
    ensures DigitParse("125K") == 125
  {
    KeepDigitsCons('K', []);
    KeepDigitsCons('5', ['K']);
    KeepDigitsCons('2', ['5', 'K']);
    KeepDigitsCons('1', ['2', '5', 'K']);
    assert "125K" == ['1', '2', '5', 'K'];
    assert KeepDigits("125K") == ['1', '2', '5'];
    DecimalValueSnoc([], '1');
    assert [] + ['1'] == ['1'];
    DecimalValueSnoc(['1'], '2');
    assert ['1'] + ['2'] == ['1', '2'];
    DecimalValueSnoc(['1', '2'], '5');
    assert ['1', '2'] + ['5'] == ['1', '2', '5'];
  }

  /** Reads a string's digits left to right, accumulating the value, as
      `parseInt` does on the stripped string. */
  method ParseDigits(s: string) returns (n: nat)
    ensures n == DigitParse(s)
  {
    n := 0;
    var i := 0;
    while i < |s|
      invariant 0 <= i <= |s|
      invariant n == DigitParse(s[..i])
    {
      assert s[..i + 1] == s[..i] + [s[i]];
      DigitParseAppend(s[..i], [s[i]]);
      if IsDigit(s[i]) {
        assert KeepDigits([s[i]]) == [s[i]];
        n := n * 10 + DigitValue(s[i]);
      } else {
        assert KeepDigits([s[i]]) == [];
      }
      i := i + 1;
    }
    assert s[..i] == s;
  }

  /** Decimal rendering of a natural number, no leading zeros: what a
      template literal produces for `${n}`. */
  function NatToDecimal(n: nat): (r: string)
    ensures |r| >= 1
    ensures AllDigits(r)
  {
    if n < 10 then [DigitChar(n)] else NatToDecimal(n / 10) + [DigitChar(n % 10)]
  }

  /** Reading back a rendered number yields the number. */
  lemma {:induction false} NatToDecimalRoundTrip(n: nat)
    ensures DecimalValue(NatToDecimal(n)) == n
    ensures DigitParse(NatToDecimal(n)) == n
  {
    var r := NatToDecimal(n);
    if n >= 10 {
      NatToDecimalRoundTrip(n / 10);
      assert r[..|r| - 1] == NatToDecimal(n / 10);
    } else {
      assert r[..0] == [];
    }
    KeepDigitsOfDigits(r);
  }

  /** `num.replace(/[^\d.]/g, '')`: the digits and dots of s, in order. */
  function KeepDigitsAndDots(s: string): (r: string)
    ensures |r| <= |s|
  {
    if s == [] then []
    else (if IsDigit(s[0]) || s[0] == '.' then [s[0]] else []) + KeepDigitsAndDots(s[1..])
  }

  /** The longest prefix of s made of digits: what `parseInt` reads from a
      string that holds only digits and dots. */
  function LeadingDigits(s: string): (r: string)
    ensures AllDigits(r)
  {
    if s == [] || !IsDigit(s[0]) then [] else [s[0]] + LeadingDigits(s[1..])
  }

  /** The numeric part of the report page's number formatter: keep digits
      and dots, read the leading run of digits, and fall back to 0. The
      page defines that formatter but never calls it, so this value feeds
      nothing in the report; it is kept for its relation to digit parsing. */
  function FormatValue(s: string): (n: nat)
    ensures n == DigitParse(BeforeFirstDot(s))
  {
    LeadingRunIsDigitsBeforeDot(s);
    DecimalValue(LeadingDigits(KeepDigitsAndDots(s)))
  }

  /** The part of s before its first '.', or all of s when it has none. */
  function BeforeFirstDot(s: string): (r: string)
    ensures |r| <= |s| && r == s[..|r|]
    ensures forall i :: 0 <= i < |r| ==> r[i] != '.'
    ensures |r| < |s| ==> s[|r|] == '.'
  {
    if s == [] || s[0] == '.' then [] else [s[0]] + BeforeFirstDot(s[1..])
  }

  /** The formatter keeps exactly the digits that come before the first dot
      of the raw string; the comma in "1,200" is dropped, while the dot in
      "1.2M" ends the number. */
  lemma {:induction false} LeadingRunIsDigitsBeforeDot(s: string)
    ensures LeadingDigits(KeepDigitsAndDots(s)) == KeepDigits(BeforeFirstDot(s))
  {
    if s != [] && s[0] != '.' {
      LeadingRunIsDigitsBeforeDot(s[1..]);
      var b := BeforeFirstDot(s[1..]);
      KeepDigitsAppend([s[0]], b);
      assert [s[0]] + b == BeforeFirstDot(s);
      if IsDigit(s[0]) {
        assert KeepDigits([s[0]]) == [s[0]];
        assert KeepDigitsAndDots(s) == [s[0]] + KeepDigitsAndDots(s[1..]);
      } else {
        assert KeepDigits([s[0]]) == [];
        assert KeepDigitsAndDots(s) == KeepDigitsAndDots(s[1..]);
      }
    }
  }

  /** The formatter's value is the digit parse of the text before the
      first dot. */
  lemma FormatValueIsParseBeforeDot(s: string)
    ensures FormatValue(s) == DigitParse(BeforeFirstDot(s))
  {
    LeadingRunIsDigitsBeforeDot(s);
  }

  /** A string with no digit before its first dot formats as 0. */
  lemma FormatValueZero(s: string)
    requires NoDigits(BeforeFirstDot(s))
    ensures FormatValue(s) == 0
  {
    FormatValueIsParseBeforeDot(s);
    NoDigitsParsesToZero(BeforeFirstDot(s));
  }

  /** "1.2M" formats from 1: the dot ends the number. */
  lemma FormatValueMillionSuffix()
    ensures FormatValue("1.2M") == 1
  {
    FormatValueIsParseBeforeDot("1.2M");
    assert BeforeFirstDot("1.2M") == ['1'];
    KeepDigitsCons('1', []);
    DecimalValueSnoc([], '1');
  }

  lemma ThousandsDigits()
    ensures KeepDigits("1,200") == ['1', '2', '0', '0']
  {
    assert "1,200" == ['1', ',', '2', '0', '0'];
    KeepDigitsCons('0', []);
    KeepDigitsCons('0', ['0']);
    KeepDigitsCons('2', ['0', '0']);
    KeepDigitsCons(',', ['2', '0', '0']);
    KeepDigitsCons('1', [',', '2', '0', '0']);
  }

  /** A string without a dot is kept whole. */
  lemma BeforeFirstDotNoDot(s: string)
    requires forall i :: 0 <= i < |s| ==> s[i] != '.'
    ensures BeforeFirstDot(s) == s
  {
  }

  lemma DecimalValueTwelveHundred()
    ensures DecimalValue(['1', '2', '0', '0']) == 1200
  {
    DecimalValueSnoc([], '1');
    assert [] + ['1'] == ['1'];
    DecimalValueSnoc(['1'], '2');
    assert ['1'] + ['2'] == ['1', '2'];
    DecimalValueSnoc(['1', '2'], '0');
    assert ['1', '2'] + ['0'] == ['1', '2', '0'];
    DecimalValueSnoc(['1', '2', '0'], '0');
    assert ['1', '2', '0'] + ['0'] == ['1', '2', '0', '0'];
  }

  /** "1,200" formats from 1200: the comma is dropped. */
  lemma FormatValueThousands()
    ensures FormatValue("1,200") == 1200
  {
    FormatValueIsParseBeforeDot("1,200");
    BeforeFirstDotNoDot("1,200");
    ThousandsDigits();
    DecimalValueTwelveHundred();
  }
}

=== FILE: pdf_preview.dfy ===
/** The report: a single render pass from the audit payload (and the
    report page's own final-comment box) to the data the page shows. The
    chart series are built from every video entry, blank or not; free-text
    metrics become numbers by digit stripping; optional text blocks appear
    exactly when their text is non-empty. */
module PdfPreview {
  import opened AuditTypes
  import opened NumericText

  datatype PerformancePoint = PerformancePoint(name: string, views: nat, likes: nat, comments: nat)

  datatype ScorePoint = ScorePoint(name: string, score: nat)

  /** The engagement percentage `(likes / views) * 100`, held exactly. */
  datatype EngagementPoint = EngagementPoint(name: string, likes: nat, divisor: nat, percent: real)

  datatype Slice = Slice(name: string, value: nat, color: string)

  datatype LatestRow = LatestRow(title: string, publishDate: string, views: string, likes: string)

  /** A summary card. The channel-age card's figure is computed from the
      host clock and date parser, so only its input is kept. */
  datatype Card = Metric(heading: string, value: string) | ChannelAge(createDate: string)

  datatype Report = Report(
    channelName: string,
    logo: Option<string>,
    cards: seq<Card>,
    channelAnalysis: Option<string>,
    performance: seq<PerformancePoint>,
    seo: seq<ScorePoint>,
    pie: seq<Slice>,
    latest: seq<LatestRow>,
    videoAnalysis: Option<string>,
    finalRecommendations: Option<string>)

  /** The positional label `Video ${index + 1}`. */
  function VideoLabel(i: nat): (r: string)
    ensures |r| > 0
  {
    "Video " + NatToDecimal(i + 1)
  }

  /** The label's number is the entry's one-based position. */
  lemma VideoLabelNumber(i: nat)
    ensures DigitParse(VideoLabel(i)) == i + 1
  {
    var prefix := "Video ";
    assert NoDigits(prefix);
    NoDigitsParsesToZero(prefix);
    DigitParseAppend(prefix, NatToDecimal(i + 1));
    NatToDecimalRoundTrip(i + 1);
  }

  /** Different positions get different labels, so the chart categories
      never collide. */
  lemma VideoLabelInjective(i: nat, j: nat)
    ensures VideoLabel(i) == VideoLabel(j) <==> i == j
  {
    VideoLabelNumber(i);
    VideoLabelNumber(j);
  }

  /** The bar-chart series: one point per video entry, in order. */
  function PerformanceData(vs: seq<VideoData>): (r: seq<PerformancePoint>)
    ensures |r| == |vs|
    ensures forall i :: 0 <= i < |vs| ==>
              && r[i].name == VideoLabel(i)
              && r[i].views == DigitParse(vs[i].views)
              && r[i].likes == DigitParse(vs[i].likes)
              && r[i].comments == DigitParse(vs[i].comments)
  {
    seq(|vs|, i requires 0 <= i < |vs| =>
      PerformancePoint(VideoLabel(i), DigitParse(vs[i].views), DigitParse(vs[i].likes), DigitParse(vs[i].comments)))
  }

  /** The SEO line series: one point per video entry. The score is not
      clamped; the 0-100 axis only bounds the drawing. */
  function SeoData(vs: seq<VideoData>): (r: seq<ScorePoint>)
    ensures |r| == |vs|
    ensures forall i :: 0 <= i < |vs| ==> r[i].name == VideoLabel(i) && r[i].score == DigitParse(vs[i].seoScore)
  {
    seq(|vs|, i requires 0 <= i < |vs| => ScorePoint(VideoLabel(i), DigitParse(vs[i].seoScore)))
  }

  /** `parseInt(views...) || 1`: a view count that reads as 0 (blank,
      digit-free or all zeros) is replaced by 1. */
  function EngagementDivisor(views: string): (d: nat)
    ensures d >= 1
    ensures DigitParse(views) > 0 ==> d == DigitParse(views)
    ensures DigitParse(views) == 0 ==> d == 1
  {
    var n := DigitParse(views);
    if n == 0 then 1 else n
  }

  /** The engagement series, computed by the page but not drawn. */
  function EngagementData(vs: seq<VideoData>): (r: seq<EngagementPoint>)
    ensures |r| == |vs|
    ensures forall i :: 0 <= i < |vs| ==>
              && r[i].name == VideoLabel(i)
              && r[i].likes == DigitParse(vs[i].likes)
              && r[i].divisor == EngagementDivisor(vs[i].views)
              && r[i].percent == (r[i].likes as real / r[i].divisor as real) * 100.0
              && r[i].percent >= 0.0
              && (r[i].percent == 0.0 <==> r[i].likes == 0)
  {
    seq(|vs|, i requires 0 <= i < |vs| =>
      var likes := DigitParse(vs[i].likes);
      var divisor := EngagementDivisor(vs[i].views);
      EngagementPoint(VideoLabel(i), likes, divisor, (likes as real / divisor as real) * 100.0))
  }

  /** The three series share their categories: entry i of each is labelled
      with the same name, so the charts line up video by video. */
  lemma SeriesShareCategories(vs: seq<VideoData>)
    ensures |PerformanceData(vs)| == |SeoData(vs)| == |EngagementData(vs)|
    ensures forall i :: 0 <= i < |vs| ==>
              PerformanceData(vs)[i].name == SeoData(vs)[i].name == EngagementData(vs)[i].name
  {
  }

  /** Series are built position by position: the series of a prefix of the
      videos is the prefix of the series. */
  lemma SeriesOfPrefix(vs: seq<VideoData>, k: nat)
    requires k <= |vs|
    ensures PerformanceData(vs[..k]) == PerformanceData(vs)[..k]
    ensures SeoData(vs[..k]) == SeoData(vs)[..k]
  {
  }

  /** A blank video entry is not dropped: it stays in the series as a
      zero point under its positional label. */
  lemma BlankVideoStaysInSeries(vs: seq<VideoData>, i: nat)
    requires i < |vs| && vs[i] == EmptyVideo()
    ensures PerformanceData(vs)[i] == PerformancePoint(VideoLabel(i), 0, 0, 0)
    ensures SeoData(vs)[i] == ScorePoint(VideoLabel(i), 0)
    ensures EngagementData(vs)[i].divisor == 1 && EngagementData(vs)[i].percent == 0.0
  {
    NoDigitsParsesToZero("");
  }

  /** The pie chart's fixed data. */
  function PieData(): (r: seq<Slice>)
    ensures |r| == 3
    ensures r[0].name == "Views" && r[1].name == "Likes" && r[2].name == "Comments"
    ensures r[0].value == 60 && r[1].value == 25 && r[2].value == 15
    ensures r[0].value + r[1].value + r[2].value == 100
    ensures r[0].value > r[1].value > r[2].value > 0
  {
    [ Slice("Views", 60, "#3B82F6"),
      Slice("Likes", 25, "#10B981"),
      Slice("Comments", 15, "#F59E0B") ]
  }

  /** The "Latest Videos" list: the first three entries (fewer when there
      are fewer), each with its title or, when that is blank, its
      positional label. */
  function LatestVideos(vs: seq<VideoData>): (r: seq<LatestRow>)
    ensures |r| == if |vs| < 3 then |vs| else 3
    ensures forall i :: 0 <= i < |r| ==>
              && (vs[i].title != "" ==> r[i].title == vs[i].title)
              && (vs[i].title == "" ==> r[i].title == VideoLabel(i))
              && r[i].publishDate == vs[i].publishDate
              && r[i].views == vs[i].views && r[i].likes == vs[i].likes
  {
    var n := if |vs| < 3 then |vs| else 3;
    seq(n, i requires 0 <= i < n =>
      LatestRow(if vs[i].title == "" then VideoLabel(i) else vs[i].title,
                vs[i].publishDate, vs[i].views, vs[i].likes))
  }

  /** No row of the list shows an empty title. */
  lemma LatestTitlesNonEmpty(vs: seq<VideoData>)
    ensures forall i :: 0 <= i < |LatestVideos(vs)| ==> LatestVideos(vs)[i].title != ""
  {
  }

  /** Entries after the third have no influence on the list. */
  lemma LatestIgnoresTail(vs: seq<VideoData>, ws: seq<VideoData>)
    requires |vs| >= 3 && |ws| >= 3 && vs[..3] == ws[..3]
    ensures LatestVideos(vs) == LatestVideos(ws)
  {
    assert forall i :: 0 <= i < 3 ==> vs[i] == vs[..3][i] == ws[..3][i] == ws[i];
  }

  /** An optional block: present exactly when its text is non-empty. */
  function Gate(text: string): (r: Option<string>)
    ensures r.Some? <==> text != ""
    ensures r.Some? ==> r.value == text
  {
    if text == "" then None else Some(text)
  }

  /** The four summary cards, shown whatever their fields hold. */
  function SummaryCards(c: ChannelData): (r: seq<Card>)
    ensures |r| == 4
    ensures r[0] == Metric("Total Subscribers", c.totalSubscribers)
    ensures r[1] == Metric("Total Views", c.totalViews)
    ensures r[2] == Metric("Total Videos", c.totalVideos)
    ensures r[3] == ChannelAge(c.channelCreateDate)
  {
    [ Metric("Total Subscribers", c.totalSubscribers),
      Metric("Total Views", c.totalViews),
      Metric("Total Videos", c.totalVideos),
      ChannelAge(c.channelCreateDate) ]
  }

  /** The report for an audit and the text of the page's own final-comment
      box. The payload's `finalComment` is not read: the page keeps its own. */
  function Render(a: AuditData, finalComment: string): (r: Report)
    ensures r.channelName == a.channelData.channelName
    ensures r.logo.Some? <==> a.channelData.channelLogo != ""
    ensures r.logo.Some? ==> r.logo.value == a.channelData.channelLogo
    ensures r.channelAnalysis.Some? <==> a.channelData.channelComment != ""
    ensures r.channelAnalysis.Some? ==> r.channelAnalysis.value == a.channelData.channelComment
    ensures r.videoAnalysis.Some? <==> a.videoComment != ""
    ensures r.videoAnalysis.Some? ==> r.videoAnalysis.value == a.videoComment
    ensures r.finalRecommendations.Some? <==> finalComment != ""
    ensures r.finalRecommendations.Some? ==> r.finalRecommendations.value == finalComment
    ensures r.cards == SummaryCards(a.channelData) && |r.cards| == 4
    ensures r.performance == PerformanceData(a.videoData) && |r.performance| == |a.videoData|
    ensures r.seo == SeoData(a.videoData) && |r.seo| == |a.videoData|
    ensures r.latest == LatestVideos(a.videoData)
    ensures |r.latest| == if |a.videoData| < 3 then |a.videoData| else 3
    ensures r.pie == PieData()
  {
    var c := a.channelData;
    Report(
      c.channelName,
      Gate(c.channelLogo),
      SummaryCards(c),
      Gate(c.channelComment),
      PerformanceData(a.videoData),
      SeoData(a.videoData),
      PieData(),
      LatestVideos(a.videoData),
      Gate(a.videoComment),
      Gate(finalComment))
  }

  /** The payload's own final comment never shows; only the page's box does. */
  lemma RenderIgnoresPayloadFinalComment(a: AuditData, other: string, finalComment: string)
    ensures Render(a, finalComment) == Render(a.(finalComment := other), finalComment)
  {
  }

  /** The pie chart and the card set are the same for every audit. */
  lemma PieAndCardsIndependentOfInput(a: AuditData, b: AuditData, f: string, g: string)
    ensures Render(a, f).pie == Render(b, g).pie
    ensures |Render(a, f).cards| == |Render(b, g).cards|
  {
  }
}

=== FILE: video_data_step.dfy ===
/** Step 2 of the wizard: the video-metrics form. While mounted it holds
    its own copy of the video list and of the analysis comment; the wizard
    sees them only when the form is submitted. Entries are edited in place
    by position and are never added or removed. */
module VideoDataStep {
  import opened AuditTypes

  datatype State = State(videos: seq<VideoData>, comment: string)

  /** The five canned video comments the comment generator picks from. */
  const CommentPool: seq<string> := [
    "The video performance shows consistent engagement with good view-to-like ratios across recent uploads.",
    "SEO optimization appears effective with strong search visibility on recent content releases.",
    "Video analytics indicate healthy audience retention and growing subscriber conversion rates.",
    "Content performance demonstrates strategic optimization with improving engagement metrics.",
    "The recent videos show strong potential for viral growth with excellent engagement patterns."
  ]

  /** Mounting the form: it starts from the wizard's drafts. */
  function Init(initialData: seq<VideoData>, initialComment: string): (s: State)
    ensures |s.videos| == |initialData|
    ensures forall i :: 0 <= i < |initialData| ==> s.videos[i] == initialData[i]
    ensures s.comment == initialComment
  {
    State(initialData, initialComment)
  }

  /** The positional update behind an edit: the entry at `index` gets the
      new field value and every other entry is copied as it was. */
  function UpdateAt(vs: seq<VideoData>, index: int, f: VideoField, v: string): (r: seq<VideoData>)
    ensures |r| == |vs|
    ensures 0 <= index < |vs| ==> GetVideo(r[index], f) == v
    ensures 0 <= index < |vs| ==> forall g :: g != f ==> GetVideo(r[index], g) == GetVideo(vs[index], g)
    ensures forall j :: 0 <= j < |vs| && j != index ==> r[j] == vs[j]
  {
    seq(|vs|, j requires 0 <= j < |vs| => if j == index then SetVideo(vs[j], f, v) else vs[j])
  }

  /** An edit of one field of one entry. */
  function VideoChange(s: State, index: int, f: VideoField, v: string): (r: State)
    ensures |r.videos| == |s.videos|
    ensures 0 <= index < |s.videos| ==> GetVideo(r.videos[index], f) == v
    ensures 0 <= index < |s.videos| ==>
              forall g :: g != f ==> GetVideo(r.videos[index], g) == GetVideo(s.videos[index], g)
    ensures forall j :: 0 <= j < |s.videos| && j != index ==> r.videos[j] == s.videos[j]
    ensures !(0 <= index < |s.videos|) ==> r == s
    ensures r.comment == s.comment
  {
    s.(videos := UpdateAt(s.videos, index, f, v))
  }

  /** Re-entering a field's previous value restores the list exactly. */
  lemma VideoChangeUndo(s: State, index: int, f: VideoField, v: string)
    requires 0 <= index < |s.videos|
    ensures VideoChange(VideoChange(s, index, f, v), index, f, GetVideo(s.videos[index], f)) == s
  {
    var r := VideoChange(VideoChange(s, index, f, v), index, f, GetVideo(s.videos[index], f));
    VideoExtensional(r.videos[index], s.videos[index]);
    assert r.videos == s.videos;
  }

  /** Edits of two different entries do not interfere: either order gives
      the same list. */
  lemma VideoChangeCommute(s: State, i: int, f: VideoField, v: string, j: int, g: VideoField, w: string)
    requires i != j
    ensures VideoChange(VideoChange(s, i, f, v), j, g, w) == VideoChange(VideoChange(s, j, g, w), i, f, v)
  {
    var a := VideoChange(VideoChange(s, i, f, v), j, g, w);
    var b := VideoChange(VideoChange(s, j, g, w), i, f, v);
    assert forall k :: 0 <= k < |a.videos| ==> a.videos[k] == b.videos[k];
  }

  /** The comment textarea. */
  function CommentChange(s: State, v: string): (r: State)
    ensures r.comment == v
    ensures r.videos == s.videos
  {
    s.(comment := v)
  }

  /** The comment generator: the comment is replaced by one of the five
      canned sentences; the videos are untouched. */
  function GenerateComment(s: State, k: Pick): (r: State)
    ensures r.comment in CommentPool
    ensures r.videos == s.videos
  {
    s.(comment := CommentPool[k])
  }

  /** Every canned sentence can be produced, and nothing outside the pool. */
  lemma GenerateCommentRange(s: State, c: string)
    ensures c in CommentPool <==> exists k: Pick :: GenerateComment(s, k).comment == c
  {
    if c in CommentPool {
      var k :| 0 <= k < |CommentPool| && CommentPool[k] == c;
      assert GenerateComment(s, k).comment == c;
    }
  }

  /** Submitting hands the current list and comment to the wizard. */
  function Submit(s: State): (out: (seq<VideoData>, string))
    ensures |out.0| == |s.videos|
    ensures forall i :: 0 <= i < |s.videos| ==> out.0[i] == s.videos[i]
    ensures out.1 == s.comment
  {
    (s.videos, s.comment)
  }
}
